=== FILE: README.md ===
# ResumeRAG skill matcher and client state, in Dafny

ResumeRAG stores uploaded resumes and scores them against a job description.
A FastAPI backend does the scoring. It has a fixed catalog of ten skill names,
and a skill counts as "found" in a text when its lower-cased name is a
substring of the lower-cased text. A React single-page client lists, searches,
views, deletes and matches resumes.

This project models both halves as pure functions over sequences and strings:

- `text.dfy` (`Text`): ASCII lower/upper-casing and the substring test, with a
  reference definition of "occurs at an offset".
- `seqs.dfy` (`Seqs`): the subsequence relation (order-preserving selection).
- `api.dfy` (`Api`): the JSON records exchanged by the two halves, `Option`,
  an HTTP `Result`, and the JSON body (value or error detail) a result is sent as.
- `uploads.dfy` (`Uploads`): the upload directory, seen as the sequence of
  `(name, extracted text)` pairs that `os.listdir` walks.
- `skills.dfy` (`Skills`): the skill catalog and the keyword scan.
- `matching.dfy` (`Matching`): the match endpoint. It builds one score card
  per resume, computes the percentage score, and sorts by score with a stable
  descending sort.
- `backend.dfy` (`Backend`): the listing endpoint and the detail endpoint.
- `client.dfy` (`Client`): the client state record, the search filter, and
  one transition function per handler. Each async handler takes the outcome
  of its `fetch` calls as a parameter: a settled response, or a rejected
  promise. It returns the new state, the requests issued and the alerts shown.

Some behaviour of the client code that the model keeps:

- When the upload or match `fetch` rejects, `loading` stays true
  (frontend/src/App.js:37-41, 70-77), so the upload button stays disabled.
- `matchJob` posts the text area's content even when it is empty
  (frontend/src/App.js:68-73).
- `showResume` and `matchJob` never look at `res.ok` (frontend/src/App.js:63-65,
  73-76). An error body such as the detail endpoint's 404 is stored as the
  modal payload, and the modal opens with it.
- The refresh after a successful delete is not awaited
  (frontend/src/App.js:52). The model records the state after that refresh
  settles.

## Model

| member | source | states |
|---|---|---|
| Text.ContainsIffOccurs | backend/main.py:57 | the recursive substring test holds exactly when the skill occurs at some offset of the text |
| Text.ContainsPrefixOfPart | frontend/src/App.js:81 | if a string occurs in a text, so does every prefix of it |
| Text.CaseVariantsAgree | backend/main.py:77 | a string, its upper-cased form and its lower-cased form all lower-case to the same string |
| Skills.SkillsIn | backend/main.py:92 | the skills found form a subsequence of the skills scanned; each mentioned skill keeps all its occurrences and every unmentioned skill is dropped |
| Skills.Mentions | backend/main.py:57 | a skill is mentioned exactly when its lower-cased name occurs at some offset of the lower-cased text |
| Skills.JobSkills | backend/main.py:76-77 | the job skills are catalog entries in catalog order, and a catalog skill is one exactly when the description mentions it, ignoring case |
| Skills.SkillsInIgnoresCase | backend/main.py:92 | two texts that differ only in letter case yield the same found skills |
| Skills.JobSkillsIgnoreCase | backend/main.py:77 | upper- or lower-casing the job description leaves the job skills unchanged |
| Skills.CatalogIsDistinct | backend/main.py:76 | the ten catalog names are pairwise different, and none is the "Not Extracted" placeholder |
| Skills.JavaScriptMentionsJava | backend/main.py:76-77 | matching is by substring, so a text saying "JavaScript" is taken to mention Java |
| Matching.Percent | backend/main.py:93 | the score lies in [0, 100]; it is 100 exactly when all of a non-empty job-skill list is matched, and 0 exactly when nothing is matched or there are no job skills |
| Matching.EntryFor | backend/main.py:92-98 | a card names its file; its matched skills are the job skills the resume mentions, in job-skill order; its score is the matched count over the job-skill count times 100, so it is 100 exactly when all job skills match and 0 exactly when none do |
| Matching.Entries | backend/main.py:79-99 | the unsorted cards hold one card per stored file, in directory order, so their file names are the directory listing |
| Matching.PercentOrder | backend/main.py:93 | for one denominator, zero included, a higher percentage means more matched skills and the converse |
| Matching.ScoreOrderFollowsMatchCount | backend/main.py:93 | for one job-skill list, the empty one included, card scores are ordered exactly as their matched-skill counts |
| Matching.ScoreGap | backend/main.py:93 | with at most ten job skills, one more matched skill raises the percentage by at least ten points |
| Matching.MatchScoresAreTenApart | backend/main.py:76-93 | within one answer, cards with different matched-skill counts score at least ten points apart, since the job skills are drawn from the ten-entry catalog |
| Matching.RoundingKeepsOrder | backend/main.py:93-101 | for a job-skill list no longer than the catalog, any scores within half a hundredth of the exact ones, as two-decimal rounding gives, order the cards as their matched-skill counts do; cards with equal counts have equal exact scores, so rounding ties them alike |
| Matching.JobSkillsFitCatalog | backend/main.py:76-77 | the job skills of any description are at most the ten catalog skills, so every answer meets the bound RoundingKeepsOrder asks for |
| Matching.Insert | backend/main.py:101 | insertion adds exactly the inserted card to the multiset of cards |
| Matching.InsertSorted | backend/main.py:101 | inserting into a list sorted by descending score keeps it sorted |
| Matching.SortByScore | backend/main.py:101 | the sorted cards are a permutation of the input cards, in non-increasing score order |
| Matching.InsertKeepsScoreGroups | backend/main.py:101 | insertion puts the card at the head of its own score group and leaves the other groups as they were |
| Matching.SortIsStable | backend/main.py:101 | for every score, the cards with that score appear in their input order after sorting |
| Matching.InsertKeepsFilenames | backend/main.py:101 | insertion adds the inserted card's file name once and leaves the other names as they were |
| Matching.SortKeepsFilenames | backend/main.py:101 | sorting permutes the cards' file names |
| Matching.EntriesAreWellFormed | backend/main.py:79-99 | every unsorted card names a stored file, has matched skills that form a subsequence of the job skills, and has a score in [0, 100] |
| Matching.MatchResumeToJob | backend/main.py:73-101 | the job skills are the catalog skills the description mentions; there is one card per stored file; the cards are a permutation of the per-file cards in non-increasing score order, and each card's score and matched skills are bounded as above |
| Matching.OneCardPerFile | backend/main.py:79-99 | the cards' file names are a permutation of the directory listing |
| Matching.MatchOrderIsStable | backend/main.py:101 | resumes with equal scores keep their directory order in the answer |
| Uploads.Find | backend/main.py:40-42 | a file is found exactly when its name is in the directory listing, and the file found carries that name |
| Backend.GetResumes | backend/main.py:26-34 | the listing's file names are the directory listing, in order, and every entry's name equals its file name |
| Backend.DetectedSkills | backend/main.py:55-60 | the skill list is never empty; it is exactly ["Not Extracted"] when the text mentions no catalog skill, and otherwise it is the mentioned catalog skills in catalog order |
| Backend.ReadResume | backend/main.py:37-60 | a name outside the listing gives 404; otherwise the detail carries the requested name, the stored text of that file and its detected skills |
| Api.BodyOf | backend/main.py:41-42 | an endpoint result is sent as its value when it succeeds, and as the error's detail when it fails |
| Client.Filtered | frontend/src/App.js:80-82 | the filtered list is a subsequence of the resumes that keeps every occurrence of a matching resume and drops every other |
| Client.FilteredMembers | frontend/src/App.js:80-82 | a resume is shown exactly when it is listed and its lower-cased name contains the lower-cased query |
| Client.EmptyQueryShowsAll | frontend/src/App.js:81 | the empty query shows the whole list unchanged |
| Client.FilterIgnoresQueryCaseOf | frontend/src/App.js:81 | two queries that differ only in letter case show the same list |
| Client.FilterIgnoresQueryCase | frontend/src/App.js:81 | the upper- and lower-cased forms of a query show the same list as the query |
| Client.LongerQueryNarrows | frontend/src/App.js:80-82 | extending the query gives a subsequence of the list shown before |
| Client.SearchExample | frontend/src/App.js:80-82 | with Alice listed, "ali" shows Alice and "bob" shows nobody |
| Client.FetchResumes | frontend/src/App.js:20-30 | one listing request; a response replaces the list, a failure keeps it; loading ends either way and nothing else changes |
| Client.ListIsLastSuccess | frontend/src/App.js:20-78 | after any run of user actions, the list in memory is the last successful listing a handler consumed (or the starting list), the query and job description are unchanged, and the picked file is unchanged or cleared |
| Client.Mount | frontend/src/App.js:16-18 | the first render issues one listing request and ends with no modal open and loading off |
| Client.UploadResume | frontend/src/App.js:32-42 | with no file picked, nothing changes and no request is made; otherwise the upload is posted first; a rejected upload leaves loading set; a settled upload clears the file and is followed by exactly one listing request |
| Client.DeleteResume | frontend/src/App.js:44-60 | without confirmation nothing happens; a confirmed delete issues exactly one delete request; only an OK answer refreshes the list; a failed or errored delete leaves the state unchanged and shows its own alert |
| Client.ShowResume | frontend/src/App.js:62-66 | the detail request names the resume's file; a settled body, error bodies included, becomes the detail payload and opens the modal, and nothing else changes; a rejection changes nothing |
| Client.MatchJob | frontend/src/App.js:68-78 | the current description is posted; a settled body is stored, the match modal opens and loading ends, and nothing else changes; a rejection leaves loading set and changes nothing else |
| Client.CloseDetail | frontend/src/App.js:193 | closing the detail modal changes only the detail payload and leaves the match modal as it was |
| Client.CloseMatch | frontend/src/App.js:221 | closing the match modal changes only its flag; the result and the detail modal are kept |
| Client.ClosesCommute | frontend/src/App.js:191-224 | the two close buttons act independently: either order of closing gives the same state, with both modals closed |
| Client.ClosesAreIdempotent | frontend/src/App.js:191-224 | pressing a close button twice is the same as pressing it once |
| Client.MatchThenClose | frontend/src/App.js:75-77 | after a settled match and closing its modal, the result is kept, loading is off, and the detail modal is as before |
| Client.LastMatchWins | frontend/src/App.js:75-77 | of two settled matches, the state is as if only the later one had run |
| Client.ShowThenClose | frontend/src/App.js:65 | opening a resume and then closing the detail modal gives the same state as just closing it |
| Client.UploadThenResubmit | frontend/src/App.js:34-39 | a settled upload clears the picked file, so submitting the form again does nothing |
| Client.ShowMissingResume | frontend/src/App.js:62-66 | viewing a resume the directory no longer holds opens the detail modal with the backend's "File not found" body |
| Client.Apply | frontend/src/App.js:20-78 | each action changes the list only by installing the listing it consumed, never touches the query or job description, and can only clear the picked file |

## Left out

- Matching.MatchResumeToJob: assumes every stored file yields text. The loop at backend/main.py:79-90 has no `try`, so one file the reader cannot parse turns the whole answer into an HTTP 500 with no cards.
- Backend.ReadResume: assumes the stored file yields text. Document reading at backend/main.py:44-53 has no `try`, so a file the reader cannot open answers a plain-text HTTP 500: a corrupt PDF, or a legacy `.doc`, which the upload form accepts (frontend/src/App.js:99) but `docx.Document` cannot read. The client's `res.json()` then rejects, so `showResume` sees a rejection (`Client.ShowResume` with `Rejected`), not a detail.
- Matching.OneCardPerFile: holds only when every stored file yields text, for the same reason.
- Matching.MatchResumeToJob: an empty description is modelled as giving no job skills and a 0 score for every file. The server never sends that answer. `description` is a required form field (backend/main.py:74), and FastAPI rejects an empty value as missing with HTTP 422 before the handler runs. Its `detail` is a list of validation errors, which `Api.ErrorBody` (a string detail) cannot hold. The client stores that body and opens the match modal, whose `job_skills.join` (frontend/src/App.js:230) then fails.
- Rendering an error body is not modelled. The match modal would fail on `job_skills` of an error body, and the detail modal shows empty fields.
- Document reading (`pdfplumber`, `docx`, plain `open`/`read`) is not modelled. Each stored file carries the text the reader would have extracted.
- The upload endpoint (backend/main.py:18-23) is not modelled. It writes the file under its own name with `shutil.copyfileobj`, silently replacing a stored file of the same name.
- The delete endpoint (backend/main.py:64-70) is not modelled as a function. It answers 404 "File not found" for a missing file and otherwise removes it; the client model sees the 404 as a settled delete whose `res.ok` is false (`Settled(false)`).
- `os.listdir` order is not modelled. The directory is a sequence taken as given.
- FastAPI routing, CORS, static file serving and `FileResponse` are framework plumbing.
- URL encoding and decoding (`encodeURIComponent`, `urllib.parse.unquote`) are library calls. File names are modelled already decoded.
- Path traversal through `os.path.join` is not modelled. A name is found only if it is in the listing.
- Matching.Percent: the score is an exact real, not rounded to two decimals as a float. Within one answer all cards share one denominator of at most ten. `Matching.RoundingKeepsOrder` shows that any scores within half a hundredth of the exact ones order the cards as their matched-skill counts do, so the order and the ties of the answer do not depend on the rounding.
- Lower-casing covers ASCII letters only. Python's `lower` and JavaScript's `toLowerCase` also map non-ASCII letters.
- The client's plain input setters (`setFile`, `setQuery`, `setJobDescription`) are not modelled. They store what the user typed or picked.
- Races between overlapping requests are not modelled. Each handler is modelled as running to completion with given outcomes.
- `window.confirm` and `alert` are not modelled as calls. The answer to the confirmation is a parameter, and alerts are reported in the handler's result.
- React rendering and framer-motion animation are not modelled. Only the two modal visibility conditions are kept as predicates.

=== FILE: api.dfy ===
/**
 The records the backend sends and the frontend consumes, and the small
 optional/error wrappers both sides use.
 */
module Api {

  datatype Option<+T> = None | Some(value: T)

  /** An endpoint either answers with a value or with an HTTP error status. */
  datatype Result<+T> = Ok(value: T) | HttpError(status: int, detail: string)

  /**
   The JSON body a client receives: the endpoint's value, or the
   `{"detail": ...}` object an HTTP error carries.
   */
  datatype Answer<+T> = Body(value: T) | ErrorBody(detail: string)

  /** The body an endpoint's result is sent as; the status code is not part of it. */
  function BodyOf<T>(r: Result<T>): (b: Answer<T>)
    ensures b.Body? <==> r.Ok?
    ensures r.Ok? ==> b.value == r.value
    ensures r.HttpError? ==> b.detail == r.detail
  {
    match r
    case Ok(v) => Body(v)
    case HttpError(_, detail) => ErrorBody(detail)
  }

  /** One line of the resume listing. */
  datatype ResumeSummary = ResumeSummary(name: string, filename: string)

  /** The detail view of one stored resume. */
  datatype ResumeDetail = ResumeDetail(name: string, content: string, skills: seq<string>)

  /** The score card of one stored resume against a job description. */
  datatype MatchEntry = MatchEntry(filename: string, matchedSkills: seq<string>, score: real)

  /** The answer of the match endpoint. */
  datatype MatchResult = MatchResult(jobSkills: seq<string>, matches: seq<MatchEntry>)

  /** The file names of a listing, in listing order. */
  function Filenames(rs: seq<ResumeSummary>): (r: seq<string>)
    ensures |r| == |rs|
    ensures forall i :: 0 <= i < |rs| ==> r[i] == rs[i].filename
  {
    seq(|rs|, i requires 0 <= i < |rs| => rs[i].filename)
  }
}

=== FILE: backend.dfy ===
/**
 The read-only endpoints of the backend over the upload directory: the
 resume listing and the detail view of one resume.
 */
module Backend {
  import opened Api
  import opened Seqs
  import opened Skills
  import opened Uploads

  /** `GET /resumes`: one summary per stored file, named after the file. */
  function GetResumes(dir: seq<StoredFile>): (r: seq<ResumeSummary>)
    ensures Filenames(r) == Names(dir)
    ensures forall e :: e in r ==> e.name == e.filename
  {
    seq(|dir|, i requires 0 <= i < |dir| => ResumeSummary(dir[i].name, dir[i].name))
  }

  /** The skills the detail view reports: the catalog skills found, or the placeholder. */
  function DetectedSkills(text: string): (r: seq<string>)
    ensures r != []
    ensures r == [NotExtracted] <==> forall s :: s in Catalog ==> !Mentions(text, s)
    ensures r != [NotExtracted] ==> IsSubseq(r, Catalog)
    ensures r != [NotExtracted] ==> forall s :: s in r <==> s in Catalog && Mentions(text, s)
  {
    var found := SkillsIn(Catalog, text);
    assert forall s :: s in found <==> multiset(found)[s] > 0;
    CatalogIsDistinct();
    assert found != [] ==> found[0] in Catalog by {
      if found != [] {
        SubseqMembers(found, Catalog, found[0]);
      }
    }
    if found == [] then [NotExtracted] else found
  }

  /** `GET /resume/{filename}`: 404 for a name not in the directory. */
  function ReadResume(dir: seq<StoredFile>, filename: string): (r: Result<ResumeDetail>)
    ensures r.HttpError? <==> filename !in Names(dir)
    ensures r.HttpError? ==> r.status == 404
    ensures r.Ok? ==> r.value.name == filename
    ensures r.Ok? ==> StoredFile(filename, r.value.content) in dir
    ensures r.Ok? ==> r.value.skills == DetectedSkills(r.value.content)
  {
    match Find(dir, filename)
    case None => HttpError(404, "File not found")
    case Some(f) => Ok(ResumeDetail(filename, f.text, DetectedSkills(f.text)))
  }
}

=== FILE: client.dfy ===
/**
 The single-page client: the in-memory state of the view, the search filter
 over the resume list, and one transition per user action. Each async
 handler is a pure function of the state it starts from and of how its
 requests end (a response, or a rejected promise), and reports the requests
 it issued and the alerts it raised, in order.
 */
module Client {
  import opened Api
  import opened Text
  import opened Seqs
  import Uploads
  import Backend

  /** The file the user picked in the upload form. */
  datatype FileRef = FileRef(name: string)

  /**
   How an awaited `fetch` (with its `json()`) ends. The detail and match
   handlers never look at `res.ok`, so what settles there is whatever JSON
   body came back, an error body included.
   */
  datatype Outcome<+T> = Settled(value: T) | Rejected

  datatype Request =
    | ListRequest
    | UploadRequest(file: FileRef)
    | DeleteRequest(filename: string)
    | DetailRequest(filename: string)
    | MatchRequest(description: string)

  /** The blocking `alert` notices of the delete handler. */
  datatype Alert = DeleteSucceeded | DeleteFailed | DeleteErrored

  datatype State = State(
    resumes: seq<ResumeSummary>,
    file: Option<FileRef>,
    query: string,
    loading: bool,
    modalData: Option<Answer<ResumeDetail>>,
    jobDescription: string,
    matchResults: Option<Answer<MatchResult>>,
    showMatchModal: bool)

  /** What one handler leaves behind. */
  datatype Step = Step(state: State, requests: seq<Request>, alerts: seq<Alert>)

  /** The state before the first render. */
  const Initial: State := State([], None, "", false, None, "", None, false)

  /** The detail modal is on screen. */
  predicate DetailOpen(st: State) {
    st.modalData.Some?
  }

  /** The match modal is on screen: it needs both the flag and a result. */
  predicate MatchOpen(st: State) {
    st.showMatchModal && st.matchResults.Some?
  }

  /** The search box hits a resume when its lower-cased name contains the lower-cased query. */
  predicate NameMatches(r: ResumeSummary, query: string) {
    Contains(LowerStr(r.name), LowerStr(query))
  }

  /**
   The resumes the search box lets through, in list order: every occurrence
   of a hit and nothing else.
   */
  function Filtered(resumes: seq<ResumeSummary>, query: string): (r: seq<ResumeSummary>)
    ensures IsSubseq(r, resumes)
    ensures forall x :: multiset(r)[x] == if NameMatches(x, query) then multiset(resumes)[x] else 0
    decreases |resumes|
  {
    if resumes == [] then []
    else
      assert resumes == [resumes[0]] + resumes[1..];
      if NameMatches(resumes[0], query) then [resumes[0]] + Filtered(resumes[1..], query)
      else Filtered(resumes[1..], query)
  }

  /** The cards the view shows. */
  function Visible(st: State): seq<ResumeSummary> {
    Filtered(st.resumes, st.query)
  }

  /** A resume is shown exactly when it is listed and its name matches the query. */
  lemma FilteredMembers(resumes: seq<ResumeSummary>, query: string, x: ResumeSummary)
    ensures x in Filtered(resumes, query) <==> x in resumes && NameMatches(x, query)
  {
  }

  /** The empty query shows the whole list. */
  lemma {:induction false} EmptyQueryShowsAll(resumes: seq<ResumeSummary>)
    ensures Filtered(resumes, "") == resumes
    decreases |resumes|
  {
    if resumes != [] {
      assert LowerStr("") == "";
      ContainsEmpty(LowerStr(resumes[0].name));
      EmptyQueryShowsAll(resumes[1..]);
    }
  }

  /** The filter only looks at the lower-cased query. */
  lemma {:induction false} FilterIgnoresQueryCaseOf(resumes: seq<ResumeSummary>, q1: string, q2: string)
    requires SameUpToCase(q1, q2)
    ensures Filtered(resumes, q1) == Filtered(resumes, q2)
    decreases |resumes|
  {
    if resumes != [] {
      FilterIgnoresQueryCaseOf(resumes[1..], q1, q2);
    }
  }

  /** Typing the query in upper or lower case shows the same cards. */
  lemma FilterIgnoresQueryCase(resumes: seq<ResumeSummary>, query: string)
    ensures Filtered(resumes, UpperStr(query)) == Filtered(resumes, query)
    ensures Filtered(resumes, LowerStr(query)) == Filtered(resumes, query)
  {
    CaseVariantsAgree(query);
    FilterIgnoresQueryCaseOf(resumes, UpperStr(query), query);
    FilterIgnoresQueryCaseOf(resumes, LowerStr(query), query);
  }

  /** Typing more characters can only narrow the shown list, in the same order. */
  lemma {:induction false} LongerQueryNarrows(resumes: seq<ResumeSummary>, query: string, more: string)
    ensures IsSubseq(Filtered(resumes, query + more), Filtered(resumes, query))
    decreases |resumes|
  {
    if resumes != [] {
      var h, rest := resumes[0], resumes[1..];
      LongerQueryNarrows(rest, query, more);
      LowerConcat(query, more);
      if NameMatches(h, query + more) {
        ContainsPrefixOfPart(LowerStr(h.name), LowerStr(query), LowerStr(more));
        assert ([h] + Filtered(rest, query + more))[1..] == Filtered(rest, query + more);
        assert ([h] + Filtered(rest, query))[1..] == Filtered(rest, query);
      } else if NameMatches(h, query) {
        assert ([h] + Filtered(rest, query))[1..] == Filtered(rest, query);
      }
    }
  }

  /** `fetchResumes`: the list is replaced on success and kept on failure; loading ends either way. */
  function FetchResumes(st: State, response: Outcome<seq<ResumeSummary>>): (r: Step)
    ensures r.requests == [ListRequest] && r.alerts == []
    ensures !r.state.loading
    ensures r.state.resumes == if response.Settled? then response.value else st.resumes
    ensures r.state == st.(resumes := r.state.resumes, loading := false)
  {
    var resumes := if response.Settled? then response.value else st.resumes;
    Step(st.(resumes := resumes, loading := false), [ListRequest], [])
  }

  /** The mount effect: one listing request from the initial state. */
  function Mount(response: Outcome<seq<ResumeSummary>>): (r: Step)
    ensures r.requests == [ListRequest]
    ensures !r.state.loading && !DetailOpen(r.state) && !MatchOpen(r.state)
    ensures r.state.resumes == if response.Settled? then response.value else []
  {
    FetchResumes(Initial, response)
  }

  /**
   `uploadResume`: nothing happens without a picked file. Otherwise the upload
   is posted; if that promise rejects the handler stops with `loading` still
   set; else the picked file is cleared and the list is fetched again.
   */
  function UploadResume(st: State, upload: Outcome<()>, listing: Outcome<seq<ResumeSummary>>): (r: Step)
    ensures st.file.None? ==> r == Step(st, [], [])
    ensures st.file.Some? ==> |r.requests| >= 1 && r.requests[0] == UploadRequest(st.file.value) && r.alerts == []
    ensures st.file.Some? && upload.Rejected? ==>
      r.requests == [UploadRequest(st.file.value)] && r.state == st.(loading := true)
    ensures st.file.Some? && upload.Settled? ==>
      && r.requests == [UploadRequest(st.file.value), ListRequest]
      && r.state.file.None? && !r.state.loading
      && r.state == FetchResumes(st, listing).state.(file := None)
  {
    match st.file
    case None => Step(st, [], [])
    case Some(f) =>
      var posting := st.(loading := true);
      if upload.Rejected? then Step(posting, [UploadRequest(f)], [])
      else
        var refreshed := FetchResumes(posting.(file := None), listing);
        Step(refreshed.state.(loading := false), [UploadRequest(f)] + refreshed.requests, [])
  }

  /**
   `deleteResume`: nothing happens unless the user confirms. A confirmed
   delete issues exactly one request; only an OK answer refreshes the list.
   */
  function DeleteResume(st: State, filename: string, confirmed: bool,
                        answer: Outcome<bool>, listing: Outcome<seq<ResumeSummary>>): (r: Step)
    ensures !confirmed ==> r == Step(st, [], [])
    ensures confirmed ==> |r.requests| >= 1 && r.requests[0] == DeleteRequest(filename)
    ensures confirmed && answer == Settled(true) ==>
      r.requests == [DeleteRequest(filename), ListRequest] && r.alerts == [DeleteSucceeded]
      && r.state == FetchResumes(st, listing).state
    ensures confirmed && answer == Settled(false) ==>
      r.requests == [DeleteRequest(filename)] && r.alerts == [DeleteFailed] && r.state == st
    ensures confirmed && answer.Rejected? ==>
      r.requests == [DeleteRequest(filename)] && r.alerts == [DeleteErrored] && r.state == st
  {
    if !confirmed then Step(st, [], [])
    else match answer
      case Rejected => Step(st, [DeleteRequest(filename)], [DeleteErrored])
      case Settled(ok) =>
        if ok then
          var refreshed := FetchResumes(st, listing);
          Step(refreshed.state, [DeleteRequest(filename)] + refreshed.requests, [DeleteSucceeded])
        else Step(st, [DeleteRequest(filename)], [DeleteFailed])
  }

  /**
   `showResume`: whatever body the detail request settles with becomes the
   detail-modal payload, an error body included; `loading` is not touched.
   */
  function ShowResume(st: State, resume: ResumeSummary, answer: Outcome<Answer<ResumeDetail>>): (r: Step)
    ensures r.requests == [DetailRequest(resume.filename)] && r.alerts == []
    ensures answer.Settled? ==> DetailOpen(r.state) && r.state == st.(modalData := Some(answer.value))
    ensures answer.Rejected? ==> r.state == st
    ensures r.state.loading == st.loading && MatchOpen(r.state) == MatchOpen(st)
    ensures r.state.resumes == st.resumes
  {
    match answer
    case Rejected => Step(st, [DetailRequest(resume.filename)], [])
    case Settled(d) => Step(st.(modalData := Some(d)), [DetailRequest(resume.filename)], [])
  }

  /**
   `matchJob`: the current description is posted as is. Whatever body comes
   back is stored and the match modal opens; if the promise rejects,
   `loading` stays set.
   */
  function MatchJob(st: State, answer: Outcome<Answer<MatchResult>>): (r: Step)
    ensures r.requests == [MatchRequest(st.jobDescription)] && r.alerts == []
    ensures answer.Settled? ==>
      MatchOpen(r.state) && !r.state.loading
      && r.state == st.(matchResults := Some(answer.value), showMatchModal := true, loading := false)
    ensures answer.Rejected? ==> r.state == st.(loading := true)
    ensures r.state.modalData == st.modalData && r.state.resumes == st.resumes
  {
    var posting := st.(loading := true);
    match answer
    case Rejected => Step(posting, [MatchRequest(st.jobDescription)], [])
    case Settled(res) =>
      Step(posting.(matchResults := Some(res), showMatchModal := true, loading := false),
           [MatchRequest(st.jobDescription)], [])
  }

  /** The close button of the detail modal. */
  function CloseDetail(st: State): (r: State)
    ensures !DetailOpen(r)
    ensures MatchOpen(r) == MatchOpen(st) && r.matchResults == st.matchResults
    ensures r.(modalData := st.modalData) == st
  {
    st.(modalData := None)
  }

  /** The close button of the match modal; the last result is kept in memory. */
  function CloseMatch(st: State): (r: State)
    ensures !MatchOpen(r)
    ensures r.matchResults == st.matchResults
    ensures DetailOpen(r) == DetailOpen(st) && r.modalData == st.modalData
    ensures r.(showMatchModal := st.showMatchModal) == st
  {
    st.(showMatchModal := false)
  }

  /** The two modals are dismissed independently: the order of the closes does not matter. */
  lemma ClosesCommute(st: State)
    ensures CloseDetail(CloseMatch(st)) == CloseMatch(CloseDetail(st))
    ensures !DetailOpen(CloseDetail(CloseMatch(st))) && !MatchOpen(CloseDetail(CloseMatch(st)))
  {
  }

  /** Closing a modal twice is closing it once. */
  lemma ClosesAreIdempotent(st: State)
    ensures CloseDetail(CloseDetail(st)) == CloseDetail(st)
    ensures CloseMatch(CloseMatch(st)) == CloseMatch(st)
  {
  }

  /** A match followed by closing its modal keeps the result and the open detail modal. */
  lemma MatchThenClose(st: State, res: Answer<MatchResult>)
    ensures var after := CloseMatch(MatchJob(st, Settled(res)).state);
      !MatchOpen(after) && after.matchResults == Some(res) && !after.loading
      && DetailOpen(after) == DetailOpen(st)
  {
  }

  /** Of two settled matches the later answer is the one shown, whatever the first was. */
  lemma LastMatchWins(st: State, first: Answer<MatchResult>, second: Answer<MatchResult>)
    ensures MatchJob(MatchJob(st, Settled(first)).state, Settled(second)).state
         == MatchJob(st, Settled(second)).state
  {
  }

  /** Opening a resume and closing its modal returns to the state with the detail modal closed. */
  lemma ShowThenClose(st: State, resume: ResumeSummary, answer: Outcome<Answer<ResumeDetail>>)
    ensures CloseDetail(ShowResume(st, resume, answer).state) == CloseDetail(st)
  {
  }

  /** A settled upload clears the picked file, so submitting again does nothing. */
  lemma UploadThenResubmit(st: State, listing: Outcome<seq<ResumeSummary>>,
                           upload2: Outcome<()>, listing2: Outcome<seq<ResumeSummary>>)
    requires st.file.Some?
    ensures var after := UploadResume(st, Settled(()), listing).state;
      UploadResume(after, upload2, listing2) == Step(after, [], [])
  {
  }

  /** A missing resume's 404 body still opens the detail modal, holding the error body. */
  lemma ShowMissingResume(dir: seq<Uploads.StoredFile>, st: State, resume: ResumeSummary)
    requires resume.filename !in Uploads.Names(dir)
    ensures var answer := BodyOf(Backend.ReadResume(dir, resume.filename));
      var r := ShowResume(st, resume, Settled(answer));
      DetailOpen(r.state) && r.state.modalData == Some(ErrorBody("File not found"))
  {
  }

  /** One user action, with the outcomes of the requests it makes. */
  datatype Action =
    | Refresh(listing: Outcome<seq<ResumeSummary>>)
    | Upload(upload: Outcome<()>, listing: Outcome<seq<ResumeSummary>>)
    | Delete(filename: string, confirmed: bool, answer: Outcome<bool>, listing: Outcome<seq<ResumeSummary>>)
    | View(resume: ResumeSummary, detail: Outcome<Answer<ResumeDetail>>)
    | Match(result: Outcome<Answer<MatchResult>>)
    | DismissDetail
    | DismissMatch

  /** The listing an action puts on screen, if it consumes a successful one. */
  function Installed(st: State, a: Action): Option<seq<ResumeSummary>> {
    match a
    case Refresh(l) => if l.Settled? then Some(l.value) else None
    case Upload(u, l) => if st.file.Some? && u.Settled? && l.Settled? then Some(l.value) else None
    case Delete(_, c, ans, l) => if c && ans == Settled(true) && l.Settled? then Some(l.value) else None
    case _ => None
  }

  /** Runs the handler an action stands for. */
  function Apply(st: State, a: Action): (r: State)
    ensures r.resumes == if Installed(st, a).Some? then Installed(st, a).value else st.resumes
    ensures r.query == st.query && r.jobDescription == st.jobDescription
    ensures r.file == st.file || r.file.None?
  {
    match a
    case Refresh(l) => FetchResumes(st, l).state
    case Upload(u, l) => UploadResume(st, u, l).state
    case Delete(f, c, ans, l) => DeleteResume(st, f, c, ans, l).state
    case View(res, d) => ShowResume(st, res, d).state
    case Match(m) => MatchJob(st, m).state
    case DismissDetail => CloseDetail(st)
    case DismissMatch => CloseMatch(st)
  }

  /** Runs the actions in order. */
  function Run(st: State, t: seq<Action>): State
    decreases |t|
  {
    if t == [] then st else Apply(Run(st, t[..|t| - 1]), t[|t| - 1])
  }

  /** The last successful listing some action of the run consumed, else `start`. */
  function LastOK(start: seq<ResumeSummary>, st: State, t: seq<Action>): seq<ResumeSummary>
    decreases |t|
  {
    if t == [] then start
    else match Installed(Run(st, t[..|t| - 1]), t[|t| - 1])
      case Some(l) => l
      case None => LastOK(start, st, t[..|t| - 1])
  }

  /**
   Whatever the user does, the list in memory is the last successful listing
   a handler consumed, and the search box and the job description are as the
   user left them; the picked file only ever gets cleared.
   */
  lemma {:induction false} ListIsLastSuccess(st: State, t: seq<Action>)
    ensures Run(st, t).resumes == LastOK(st.resumes, st, t)
    ensures Run(st, t).query == st.query && Run(st, t).jobDescription == st.jobDescription
    ensures Run(st, t).file == st.file || Run(st, t).file.None?
    ensures Visible(Run(st, t)) == Filtered(LastOK(st.resumes, st, t), st.query)
    decreases |t|
  {
    if t != [] {
      ListIsLastSuccess(st, t[..|t| - 1]);
    }
  }

  /** The search example: "ali" finds Alice, "bob" finds nobody. */
  lemma SearchExample()
    ensures Filtered([ResumeSummary("Alice", "a.pdf")], "ali") == [ResumeSummary("Alice", "a.pdf")]
    ensures Filtered([ResumeSummary("Alice", "a.pdf")], "bob") == []
  {
    var alice := ResumeSummary("Alice", "a.pdf");
    var name, ali, bob := LowerStr("Alice"), LowerStr("ali"), LowerStr("bob");
    assert forall i :: 0 <= i < |name| ==> name[i] == "alice"[i];
    assert name == "alice";
    assert forall i :: 0 <= i < |bob| ==> bob[i] == "bob"[i];
    assert bob == "bob";
    assert name[..|ali|] == ali;
    assert NameMatches(alice, "ali");
    assert "alice"[4..][0] != "bob"[0];
    assert !Contains("alice"[4..], "bob");
    assert "alice"[3..][0] != "bob"[0];
    assert !Contains("alice"[3..], "bob");
    assert "alice"[2..][0] != "bob"[0];
    assert !Contains("alice"[2..], "bob");
    assert "alice"[1..][0] != "bob"[0];
    assert !Contains("alice"[1..], "bob");
    assert "alice"[0] != "bob"[0];
    assert !Contains("alice", "bob");
    assert !NameMatches(alice, "bob");
    assert [alice][1..] == [];
  }
}

=== FILE: matching.dfy ===
/**
 The match endpoint: the job skills of a description, one score card per
 stored resume, and the cards ordered by score, highest first, with ties kept
 in directory order.
 */
module Matching {
  import opened Api
  import opened Seqs
  import opened Skills
  import opened Uploads

  /** `k` of `n` skills as a percentage; no job skills scores 0. */
  function Percent(k: nat, n: nat): (r: real)
    requires k <= n
    ensures 0.0 <= r <= 100.0
    ensures r == 100.0 <==> 0 < n && k == n
    ensures r == 0.0 <==> k == 0
  {
    if n == 0 then 0.0 else (k as real) / (n as real) * 100.0
  }

  /** The score card of one stored resume against the job skills. */
  function EntryFor(jobSkills: seq<string>, f: StoredFile): (e: MatchEntry)
    ensures e.filename == f.name
    ensures IsSubseq(e.matchedSkills, jobSkills)
    ensures forall s :: s in e.matchedSkills <==> s in jobSkills && Mentions(f.text, s)
    ensures |e.matchedSkills| <= |jobSkills| && e.score == Percent(|e.matchedSkills|, |jobSkills|)
    ensures 0.0 <= e.score <= 100.0
    ensures jobSkills == [] ==> e.score == 0.0
    ensures e.score == 100.0 <==> jobSkills != [] && e.matchedSkills == jobSkills
    ensures e.score == 0.0 <==> e.matchedSkills == []
  {
    var matched := SkillsIn(jobSkills, f.text);
    assert forall s :: s in matched <==> multiset(matched)[s] > 0;
    SubseqLength(matched, jobSkills);
    assert |matched| == |jobSkills| ==> matched == jobSkills by {
      if |matched| == |jobSkills| {
        SubseqSameLength(matched, jobSkills);
      }
    }
    MatchEntry(f.name, matched, Percent(|matched|, |jobSkills|))
  }

  /** The score cards in directory order, before sorting: one per stored file. */
  function Entries(jobSkills: seq<string>, dir: seq<StoredFile>): (r: seq<MatchEntry>)
    ensures |r| == |dir|
    ensures CardFilenames(r) == Names(dir)
    ensures forall i :: 0 <= i < |dir| ==> r[i] == EntryFor(jobSkills, dir[i])
  {
    seq(|dir|, i requires 0 <= i < |dir| => EntryFor(jobSkills, dir[i]))
  }

  /** Highest score first. */
  ghost predicate SortedByScore(s: seq<MatchEntry>) {
    forall i, j :: 0 <= i < j < |s| ==> s[i].score >= s[j].score
  }

  /** The cards of `s` that carry score `v`, in the order of `s`. */
  function WithScore(s: seq<MatchEntry>, v: real): (r: seq<MatchEntry>)
    ensures IsSubseq(r, s)
    ensures forall e :: e in r <==> e in s && e.score == v
    decreases |s|
  {
    if s == [] then []
    else if s[0].score == v then [s[0]] + WithScore(s[1..], v)
    else WithScore(s[1..], v)
  }

  /** Every card of `s` scores at most `v`. */
  ghost predicate ScoresAtMost(s: seq<MatchEntry>, v: real) {
    forall e :: e in s ==> e.score <= v
  }

  /**
   Places `x` after every card scoring strictly more and before every card
   scoring the same or less, so `x` stays ahead of equal cards that came after
   it in the input.
   */
  function Insert(x: MatchEntry, t: seq<MatchEntry>): (r: seq<MatchEntry>)
    ensures multiset(r) == multiset(t) + multiset{x}
    ensures |r| == |t| + 1
    decreases |t|
  {
    if t == [] || t[0].score <= x.score then [x] + t
    else
      assert t == [t[0]] + t[1..];
      [t[0]] + Insert(x, t[1..])
  }

  /** A card heading a sorted list it does not score below keeps it sorted. */
  lemma ConsSorted(h: MatchEntry, s: seq<MatchEntry>)
    requires SortedByScore(s)
    requires ScoresAtMost(s, h.score)
    ensures SortedByScore([h] + s)
  {
  }

  /** Inserting into a sorted list keeps it sorted. */
  lemma {:induction false} InsertSorted(x: MatchEntry, t: seq<MatchEntry>)
    requires SortedByScore(t)
    ensures SortedByScore(Insert(x, t))
    decreases |t|
  {
    if t == [] || t[0].score <= x.score {
      forall e | e in t ensures e.score <= x.score {
        var k :| 0 <= k < |t| && t[k] == e;
        assert t[0].score >= t[k].score;
      }
      ConsSorted(x, t);
    } else {
      var tail := t[1..];
      assert SortedByScore(tail) by {
        forall i, j | 0 <= i < j < |tail| ensures tail[i].score >= tail[j].score {
          assert tail[i] == t[i + 1] && tail[j] == t[j + 1];
        }
      }
      InsertSorted(x, tail);
      var rest := Insert(x, tail);
      forall e | e in rest ensures e.score <= t[0].score {
        assert e in multiset(rest);
        assert e in multiset(tail) + multiset{x};
        if e != x {
          assert e in tail;
          var k :| 0 <= k < |tail| && tail[k] == e;
          assert t[k + 1] == e;
        }
      }
      ConsSorted(t[0], rest);
    }
  }

  /** Python's `sorted(..., key=score, reverse=True)`: a stable descending sort. */
  function SortByScore(s: seq<MatchEntry>): (r: seq<MatchEntry>)
    ensures multiset(r) == multiset(s)
    ensures |r| == |s|
    ensures SortedByScore(r)
    decreases |s|
  {
    if s == [] then []
    else
      assert s == [s[0]] + s[1..];
      var rest := SortByScore(s[1..]);
      InsertSorted(s[0], rest);
      Insert(s[0], rest)
  }

  /** Inserting `x` adds it at the head of its own score group and nowhere else. */
  lemma {:induction false} InsertKeepsScoreGroups(x: MatchEntry, t: seq<MatchEntry>, v: real)
    ensures WithScore(Insert(x, t), v) == if x.score == v then [x] + WithScore(t, v) else WithScore(t, v)
    decreases |t|
  {
    if t == [] || t[0].score <= x.score {
      assert ([x] + t)[1..] == t;
    } else {
      InsertKeepsScoreGroups(x, t[1..], v);
      assert ([t[0]] + Insert(x, t[1..]))[1..] == Insert(x, t[1..]);
    }
  }

  /** The sort is stable: every score group keeps its input order. */
  lemma {:induction false} SortIsStable(s: seq<MatchEntry>, v: real)
    ensures WithScore(SortByScore(s), v) == WithScore(s, v)
    decreases |s|
  {
    if s != [] {
      SortIsStable(s[1..], v);
      InsertKeepsScoreGroups(s[0], SortByScore(s[1..]), v);
    }
  }

  /** What every score card promises, whichever resume it belongs to. */
  lemma EntriesAreWellFormed(jobSkills: seq<string>, dir: seq<StoredFile>)
    ensures forall e :: e in Entries(jobSkills, dir) ==>
      e.filename in Names(dir) && IsSubseq(e.matchedSkills, jobSkills) && 0.0 <= e.score <= 100.0
  {
  }

  /** The match endpoint over the stored resumes. */
  function MatchResumeToJob(description: string, dir: seq<StoredFile>): (r: MatchResult)
    ensures IsSubseq(r.jobSkills, Catalog)
    ensures forall s :: s in r.jobSkills <==> s in Catalog && Mentions(description, s)
    ensures |r.matches| == |dir|
    ensures multiset(r.matches) == multiset(Entries(r.jobSkills, dir))
    ensures SortedByScore(r.matches)
    ensures forall i :: 0 <= i < |dir| ==> EntryFor(r.jobSkills, dir[i]) in r.matches
    ensures forall e :: e in r.matches ==> e.filename in Names(dir)
    ensures forall e :: e in r.matches ==> IsSubseq(e.matchedSkills, r.jobSkills) && 0.0 <= e.score <= 100.0
  {
    var jobSkills := JobSkills(description);
    var entries := Entries(jobSkills, dir);
    var sorted := SortByScore(entries);
    assert forall e :: e in sorted <==> e in entries by {
      forall e ensures e in sorted <==> e in entries {
        assert e in sorted <==> e in multiset(sorted);
        assert e in entries <==> e in multiset(entries);
      }
    }
    assert forall i :: 0 <= i < |dir| ==> entries[i] in entries;
    EntriesAreWellFormed(jobSkills, dir);
    MatchResult(jobSkills, sorted)
  }

  /** The file names of a run of score cards, in order. */
  function CardFilenames(s: seq<MatchEntry>): (r: seq<string>)
    ensures |r| == |s|
    ensures forall i :: 0 <= i < |s| ==> r[i] == s[i].filename
  {
    seq(|s|, i requires 0 <= i < |s| => s[i].filename)
  }

  /** Inserting a card adds its file name once and moves no other name in or out. */
  lemma {:induction false} InsertKeepsFilenames(x: MatchEntry, t: seq<MatchEntry>)
    ensures multiset(CardFilenames(Insert(x, t))) == multiset(CardFilenames(t)) + multiset{x.filename}
    decreases |t|
  {
    if t == [] || t[0].score <= x.score {
      assert CardFilenames([x] + t) == [x.filename] + CardFilenames(t);
    } else {
      InsertKeepsFilenames(x, t[1..]);
      assert CardFilenames([t[0]] + Insert(x, t[1..])) == [t[0].filename] + CardFilenames(Insert(x, t[1..]));
      assert CardFilenames(t) == [t[0].filename] + CardFilenames(t[1..]);
    }
  }

  /** One step of the sort: the head card is inserted into the sorted tail. */
  lemma SortByScoreCons(s: seq<MatchEntry>)
    requires s != []
    ensures SortByScore(s) == Insert(s[0], SortByScore(s[1..]))
  {
  }

  /** The names of a non-empty run are its head's name followed by the tail's names. */
  lemma CardFilenamesCons(s: seq<MatchEntry>)
    requires s != []
    ensures multiset(CardFilenames(s)) == multiset{s[0].filename} + multiset(CardFilenames(s[1..]))
  {
    assert CardFilenames(s) == [s[0].filename] + CardFilenames(s[1..]);
  }

  /** Sorting reorders the cards' file names and nothing more. */
  lemma {:induction false} SortKeepsFilenames(s: seq<MatchEntry>)
    ensures multiset(CardFilenames(SortByScore(s))) == multiset(CardFilenames(s))
    decreases |s|
  {
    if s != [] {
      var rest := SortByScore(s[1..]);
      SortByScoreCons(s);
      SortKeepsFilenames(s[1..]);
      InsertKeepsFilenames(s[0], rest);
      CardFilenamesCons(s);
    }
  }

  /** The match answer holds exactly one card per stored file. */
  lemma OneCardPerFile(description: string, dir: seq<StoredFile>)
    ensures multiset(CardFilenames(MatchResumeToJob(description, dir).matches)) == multiset(Names(dir))
  {
    var entries := Entries(JobSkills(description), dir);
    SortKeepsFilenames(entries);
    assert CardFilenames(entries) == Names(dir);
  }

  /** Resumes with equal scores are listed in directory order. */
  lemma MatchOrderIsStable(description: string, dir: seq<StoredFile>, v: real)
    ensures WithScore(MatchResumeToJob(description, dir).matches, v)
         == WithScore(Entries(JobSkills(description), dir), v)
  {
    SortIsStable(Entries(JobSkills(description), dir), v);
  }

  /** Dividing by a positive number keeps the order of reals. */
  lemma DivideKeepsOrder(a: real, b: real, c: real)
    requires 0.0 < c
    ensures a <= b <==> a / c <= b / c
  {
  }

  /** With one denominator, a higher percentage means more skills matched. */
  lemma PercentOrder(k1: nat, k2: nat, n: nat)
    requires k1 <= n && k2 <= n
    ensures Percent(k1, n) <= Percent(k2, n) <==> k1 <= k2
  {
    if 0 < n {
      DivideKeepsOrder(k1 as real, k2 as real, n as real);
    }
  }

  /**
   For one job description every card shares the same denominator, so the
   exact score order is the order of matched-skill counts (`RoundingKeepsOrder`
   carries this over to rounded scores).
   */
  lemma ScoreOrderFollowsMatchCount(jobSkills: seq<string>, f: StoredFile, g: StoredFile)
    ensures var a, b := EntryFor(jobSkills, f), EntryFor(jobSkills, g);
      a.score <= b.score <==> |a.matchedSkills| <= |b.matchedSkills|
  {
    var a, b := EntryFor(jobSkills, f), EntryFor(jobSkills, g);
    SubseqLength(a.matchedSkills, jobSkills);
    SubseqLength(b.matchedSkills, jobSkills);
    PercentOrder(|a.matchedSkills|, |b.matchedSkills|, |jobSkills|);
  }

  /** With at most ten job skills, one more matched skill is worth at least ten points. */
  lemma ScoreGap(ka: real, kb: real, n: real)
    requires 0.0 < n <= 10.0 && ka + 1.0 <= kb
    ensures kb / n * 100.0 - ka / n * 100.0 >= 10.0
  {
    DivideKeepsOrder(1.0, kb - ka, n);
    assert (kb - ka) / n == kb / n - ka / n;
    assert n * (1.0 / n) == 1.0;
    assert 1.0 / n >= 0.1;
  }

  /**
   Within one answer, two cards with different matched-skill counts are at
   least ten points apart, because the catalog bounds the job skills by ten.
   */
  lemma MatchScoresAreTenApart(description: string, f: StoredFile, g: StoredFile)
    ensures var jobSkills := JobSkills(description);
      var a, b := EntryFor(jobSkills, f), EntryFor(jobSkills, g);
      |a.matchedSkills| < |b.matchedSkills| ==> b.score - a.score >= 10.0
  {
    var jobSkills := JobSkills(description);
    var a, b := EntryFor(jobSkills, f), EntryFor(jobSkills, g);
    SubseqLength(jobSkills, Catalog);
    if |a.matchedSkills| < |b.matchedSkills| {
      ScoreGap(|a.matchedSkills| as real, |b.matchedSkills| as real, |jobSkills| as real);
    }
  }

  /** The job skills of any description fit the catalog, so there are at most ten. */
  lemma JobSkillsFitCatalog(description: string)
    ensures |JobSkills(description)| <= |Catalog| == 10
  {
    SubseqLength(JobSkills(description), Catalog);
  }

  /**
   Rounding to two decimals moves a score by at most half a hundredth. For a
   job-skill list no longer than the catalog, which every answer's is, the
   rounded scores order the cards as their matched-skill counts do, and cards
   with equal counts carry equal scores before rounding.
   */
  lemma RoundingKeepsOrder(jobSkills: seq<string>, f: StoredFile, g: StoredFile, ra: real, rb: real)
    requires |jobSkills| <= |Catalog|
    requires -0.005 <= ra - EntryFor(jobSkills, f).score <= 0.005
    requires -0.005 <= rb - EntryFor(jobSkills, g).score <= 0.005
    ensures var a, b := EntryFor(jobSkills, f), EntryFor(jobSkills, g);
      (|a.matchedSkills| < |b.matchedSkills| ==> ra < rb) &&
      (|a.matchedSkills| == |b.matchedSkills| ==> a.score == b.score)
  {
    var a, b := EntryFor(jobSkills, f), EntryFor(jobSkills, g);
    if |a.matchedSkills| < |b.matchedSkills| {
      ScoreGap(|a.matchedSkills| as real, |b.matchedSkills| as real, |jobSkills| as real);
    }
  }
}

=== FILE: seqs.dfy ===
/** Order-preserving sub-selection of a sequence. */
module Seqs {

  /** `a` can be obtained from `b` by deleting elements, keeping the order. */
  ghost predicate IsSubseq<T>(a: seq<T>, b: seq<T>)
    decreases |b|
  {
    a == [] || (|b| > 0 && ((a[0] == b[0] && IsSubseq(a[1..], b[1..])) || IsSubseq(a, b[1..])))
  }

  /** A subsequence is never longer than the sequence it is taken from. */
  lemma {:induction false} SubseqLength<T>(a: seq<T>, b: seq<T>)
    requires IsSubseq(a, b)
    ensures |a| <= |b|
    decreases |b|
  {
    if a != [] {
      if a[0] == b[0] && IsSubseq(a[1..], b[1..]) {
        SubseqLength(a[1..], b[1..]);
      } else {
        SubseqLength(a, b[1..]);
      }
    }
  }

  /** A subsequence only holds elements of the sequence it is taken from. */
  lemma {:induction false} SubseqMembers<T>(a: seq<T>, b: seq<T>, x: T)
    requires IsSubseq(a, b)
    requires x in a
    ensures x in b
    decreases |b|
  {
    if a[0] == b[0] && IsSubseq(a[1..], b[1..]) {
      if x != a[0] {
        SubseqMembers(a[1..], b[1..], x);
      }
    } else {
      SubseqMembers(a, b[1..], x);
    }
  }

  /** A subsequence as long as its source is the source itself. */
  lemma {:induction false} SubseqSameLength<T>(a: seq<T>, b: seq<T>)
    requires IsSubseq(a, b)
    requires |a| == |b|
    ensures a == b
    decreases |b|
  {
    if a != [] {
      if a[0] == b[0] && IsSubseq(a[1..], b[1..]) {
        SubseqSameLength(a[1..], b[1..]);
        assert a == [a[0]] + a[1..];
        assert b == [b[0]] + b[1..];
      } else {
        SubseqLength(a, b[1..]);
        assert false;
      }
    }
  }
}

=== FILE: skills.dfy ===
/**
 The keyword skill scan of the backend: a fixed catalog of ten skill names,
 each of which is "found" in a text when its lower-cased name is a substring
 of the lower-cased text.
 */
module Skills {
  import opened Text
  import opened Seqs

  /** The skill catalog, in the order the backend scans it. */
  const Catalog: seq<string> :=
    ["Python", "Java", "SQL", "FastAPI", "React", "Node", "Django", "AWS", "Docker", "Kubernetes"]

  /** The placeholder the detail view shows when no catalog skill is found. */
  const NotExtracted: string := "Not Extracted"

  /**
   Case-insensitive substring test of one skill name against a text: the
   lower-cased name sits at some offset of the lower-cased text.
   */
  predicate Mentions(text: string, skill: string)
    ensures Mentions(text, skill) <==> exists i :: OccursAt(LowerStr(text), LowerStr(skill), i)
  {
    ContainsIffOccurs(LowerStr(text), LowerStr(skill));
    Contains(LowerStr(text), LowerStr(skill))
  }

  /**
   The skills of `skills` that `text` mentions, in the order of `skills`:
   a subsequence that keeps every mentioned occurrence and drops every other.
   */
  function SkillsIn(skills: seq<string>, text: string): (r: seq<string>)
    ensures IsSubseq(r, skills)
    ensures forall s :: multiset(r)[s] == if Mentions(text, s) then multiset(skills)[s] else 0
    decreases |skills|
  {
    if skills == [] then []
    else
      assert skills == [skills[0]] + skills[1..];
      if Mentions(text, skills[0]) then [skills[0]] + SkillsIn(skills[1..], text)
      else SkillsIn(skills[1..], text)
  }

  /** The catalog skills a job description asks for. */
  function JobSkills(description: string): (r: seq<string>)
    ensures IsSubseq(r, Catalog)
    ensures forall s :: s in r <==> s in Catalog && Mentions(description, s)
  {
    var r := SkillsIn(Catalog, description);
    assert forall s :: s in r <==> multiset(r)[s] > 0;
    r
  }

  /** The scan only looks at the lower-cased text. */
  lemma {:induction false} SkillsInIgnoresCase(skills: seq<string>, a: string, b: string)
    requires SameUpToCase(a, b)
    ensures SkillsIn(skills, a) == SkillsIn(skills, b)
    decreases |skills|
  {
    if skills != [] {
      SkillsInIgnoresCase(skills[1..], a, b);
    }
  }

  /** Re-casing the job description leaves the job skills unchanged. */
  lemma JobSkillsIgnoreCase(description: string)
    ensures JobSkills(UpperStr(description)) == JobSkills(description)
    ensures JobSkills(LowerStr(description)) == JobSkills(description)
  {
    CaseVariantsAgree(description);
    SkillsInIgnoresCase(Catalog, UpperStr(description), description);
    SkillsInIgnoresCase(Catalog, LowerStr(description), description);
  }

  /** No catalog entry is listed twice, and none is the placeholder. */
  lemma CatalogIsDistinct()
    ensures forall i, j :: 0 <= i < j < |Catalog| ==> Catalog[i] != Catalog[j]
    ensures NotExtracted !in Catalog
  {
  }

  /** Substring matching is keyword matching: "JavaScript" asks for Java. */
  lemma JavaScriptMentionsJava()
    ensures Mentions("JavaScript", "Java")
  {
  }
}

=== FILE: text.dfy ===
/**
 The string operations both halves of the application rely on: lower-casing
 (Python's `str.lower`, JavaScript's `toLowerCase`) restricted to ASCII, and
 the substring test (Python's `in`, JavaScript's `includes`).
 */
module Text {

  /** ASCII lower-casing of one character; every other character is kept. */
  function Lower(c: char): char {
    if 'A' <= c <= 'Z' then (c as int + 32) as char else c
  }

  /** ASCII upper-casing of one character; every other character is kept. */
  function Upper(c: char): char {
    if 'a' <= c <= 'z' then (c as int - 32) as char else c
  }

  /** An ASCII capital letter. */
  predicate IsUpperLetter(c: char) {
    'A' <= c <= 'Z'
  }

  /** Lower-cases a whole string, character by character. */
  function LowerStr(s: string): (r: string)
    ensures |r| == |s|
    ensures forall i :: 0 <= i < |s| ==> r[i] == Lower(s[i])
    ensures forall i :: 0 <= i < |r| ==> !IsUpperLetter(r[i])
  {
    seq(|s|, i requires 0 <= i < |s| => Lower(s[i]))
  }

  /** Upper-cases a whole string, character by character. */
  function UpperStr(s: string): (r: string)
    ensures |r| == |s|
    ensures forall i :: 0 <= i < |s| ==> r[i] == Upper(s[i])
  {
    seq(|s|, i requires 0 <= i < |s| => Upper(s[i]))
  }

  /** Two strings that differ only in the case of their ASCII letters. */
  predicate SameUpToCase(a: string, b: string) {
    LowerStr(a) == LowerStr(b)
  }

  /** Lower-casing distributes over concatenation. */
  lemma LowerConcat(a: string, b: string)
    ensures LowerStr(a + b) == LowerStr(a) + LowerStr(b)
  {
  }

  /** A string, its upper-cased and its lower-cased form agree up to case. */
  lemma CaseVariantsAgree(s: string)
    ensures SameUpToCase(UpperStr(s), s)
    ensures SameUpToCase(LowerStr(s), s)
  {
  }

  /** `part` is a prefix of `text`. */
  predicate IsPrefix(part: string, text: string) {
    |part| <= |text| && text[..|part|] == part
  }

  /** `part` occurs in `text` as a contiguous block (Python `part in text`). */
  predicate Contains(text: string, part: string)
    decreases |text|
  {
    IsPrefix(part, text) || (|text| > 0 && Contains(text[1..], part))
  }

  /** Reference reading of a substring: `part` sits in `text` at offset `i`. */
  ghost predicate OccursAt(text: string, part: string, i: int) {
    0 <= i && i + |part| <= |text| && text[i..i + |part|] == part
  }

  /** `Contains` holds exactly when `part` occurs at some offset of `text`. */
  lemma {:induction false} ContainsIffOccurs(text: string, part: string)
    ensures Contains(text, part) <==> exists i :: OccursAt(text, part, i)
    decreases |text|
  {
    if Contains(text, part) {
      if IsPrefix(part, text) {
        assert OccursAt(text, part, 0);
      } else {
        ContainsIffOccurs(text[1..], part);
        var i :| OccursAt(text[1..], part, i);
        assert text[1..][i..i + |part|] == text[i + 1..i + 1 + |part|];
        assert OccursAt(text, part, i + 1);
      }
    }
    if exists i :: OccursAt(text, part, i) {
      var i :| OccursAt(text, part, i);
      if i == 0 {
        assert IsPrefix(part, text);
      } else {
        assert text[1..][i - 1..i - 1 + |part|] == text[i..i + |part|];
        assert OccursAt(text[1..], part, i - 1);
        ContainsIffOccurs(text[1..], part);
      }
    }
  }

  /** The empty string occurs in every string. */
  lemma ContainsEmpty(text: string)
    ensures Contains(text, "")
  {
  }

  /** If `part + more` occurs in `text`, so does `part`. */
  lemma {:induction false} ContainsPrefixOfPart(text: string, part: string, more: string)
    requires Contains(text, part + more)
    ensures Contains(text, part)
    decreases |text|
  {
    if IsPrefix(part + more, text) {
      assert text[..|part|] == (part + more)[..|part|];
      assert IsPrefix(part, text);
    } else {
      ContainsPrefixOfPart(text[1..], part, more);
    }
  }
}

=== FILE: uploads.dfy ===
/**
 The upload directory, seen as the sequence `os.listdir` walks: each stored
 file carries its name and the text the document reader extracted from it.
 */
module Uploads {
  import opened Api

  datatype StoredFile = StoredFile(name: string, text: string)

  /** The directory listing: file names in directory order. */
  function Names(dir: seq<StoredFile>): (r: seq<string>)
    ensures |r| == |dir|
    ensures forall i :: 0 <= i < |dir| ==> r[i] == dir[i].name
  {
    seq(|dir|, i requires 0 <= i < |dir| => dir[i].name)
  }

  /** The stored file with the given name (`os.path.exists` then read). */
  function Find(dir: seq<StoredFile>, name: string): (r: Option<StoredFile>)
    ensures r.None? <==> name !in Names(dir)
    ensures r.Some? ==> r.value in dir && r.value.name == name
    decreases |dir|
  {
    if dir == [] then None
    else if dir[0].name == name then Some(dir[0])
    else
      assert Names(dir) == [dir[0].name] + Names(dir[1..]);
      Find(dir[1..], name)
  }
}
